=== FILE: README.md ===
# multiprocess-wraps, modelled in Dafny

`multiprocess-wraps` wraps a Python function so that calling the wrapper
with parallel argument sequences calls the function once per index, in a
`multiprocessing` pool, and returns the results in index order. This project
models the dispatch logic around the pool, with the pool itself abstracted
away:

- `Aligner` — `_BaseMultiprocess._check_args`: the set of lengths of all
  positional and keyword argument sequences, accepted when it has exactly
  one element; an empty set makes `length[0]` raise an IndexError.
- `BaseMultiprocess` — `_BaseMultiprocess.__init__` (the `FunctionType`
  check, clamping the worker count to the CPU count, rejecting a
  non-positive count, the stored configuration), `_exec` (`Exec`, which
  unpacks one index's arguments and calls the target), and `__call__`:
  batch validation (`Batch`), the per-index argument extraction (`UnitAt`),
  and the collection loop (`Dispatch`, `Call`). Every `apply_async` is
  followed at once by `.get()`, so a call is a sequential indexed map that
  stops at the first index whose invocation raises and re-raises that
  exception; `Collect` and `Run` are its functional reference definition.
  The `calls` out-parameter counts how often the target was invoked.
- `CudaMultiprocess` — `multiprocess_enable_cuda`: `gpu_ids` (default `'0'`)
  split on commas and prefixed with `cuda:`, the options updated before the
  base constructor runs, the CUDA probe after it, and the call delegating to
  the base call.
- `Multiprocess` — class `multiprocess` in `__init__.py`: the `cuda` option
  (default false) selects the variant; the call forwards to it.
- `Strings` (Python's `str.split` with an explicit separator, and its
  inverse `Join`), `Config` (option values, `dict.get`, truthiness),
  `Failures` (the exceptions raised, and `Result`), `Scenarios` (worked
  batches).

The target, the CPU count and the CUDA-availability probe are parameters:
a `Target` carries the function's `__name__`, what sort of callable it is
(only plain functions pass `isinstance(func, FunctionType)`) and a total
function from positional and keyword arguments to an `Outcome` (a returned
value or a raised exception); `cpuCount` stands for `mp.cpu_count()` and
`cudaAvailable` for `torch.cuda.is_available()`.

Behaviour worth noting:

- A call with no argument sequences at all is an IndexError (from
  `length[0]` on an empty list), not a configuration error.
- When the invocation at index `k` raises, indices after `k` are never
  dispatched, because each result is awaited before the next submission.
- In accelerator mode a `gpu_ids` option of another modelled kind (None,
  bool, int, list) raises an AttributeError at `split`, before the target
  and the worker count are checked; a `gpu_ids` that is a string is parsed
  before those checks too.
- The constructor's docstring says ValueError is raised for a count below
  0; the code raises it for any effective count `<= 0`.

## Model

| member | source | states |
|---|---|---|
| `Strings.Split` | multiprocess_wraps/multiprocess_enable_cuda.py:17 | `s.split(',')` has one piece more than `s` has commas, no piece contains a comma, and joining the pieces with commas gives `s` back |
| `Strings.SplitJoin` | multiprocess_wraps/multiprocess_enable_cuda.py:17 | splitting the comma-join of comma-free pieces gives the pieces back, so splitting and joining are inverse |
| `Aligner.LengthsEmpty` | multiprocess_wraps/base_multiprocess.py:65-66 | the set of argument lengths is empty exactly when no positional and no keyword sequence was given |
| `Aligner.CheckArgs` | multiprocess_wraps/base_multiprocess.py:62-72 | `(n, True)` exactly when sequences exist and all have length `n`; `(-1, False)` exactly when sequences exist and no length is shared by all; IndexError exactly when there are no sequences |
| `BaseMultiprocess.New` | multiprocess_wraps/base_multiprocess.py:15-45 | a non-function target is a TypeError before any worker check; otherwise ValueError carrying the requested count exactly when `min(requested, cpu_count) <= 0`; on success the pool runs `min(requested, cpu_count)` workers, keeps the raw `verbose` option, and its stored configuration is the options plus `func_name`, the requested unclamped `n_workers` and the class name |
| `Config.Truthy` | multiprocess_wraps/__init__.py:19 | the test `if self.cuda:` holds for every option value except `None`, `False`, `0`, `''` and `[]` |
| `BaseMultiprocess.ExecAtIndex` | multiprocess_wraps/base_multiprocess.py:9-11 | `_exec((args, kwargs), func)` on the i-th invocation of a batch equals the direct call of the target on `[x[i] for x in args]` and `{k: v[i]}` that `__call__` submits as `apply_async(self.func, args=arg, kwds=kwarg)` (base_multiprocess.py:139-141), so routing through `_exec` or not gives the same call |
| `BaseMultiprocess.UnitAt` | multiprocess_wraps/base_multiprocess.py:139-140 | the i-th invocation has the i-th element of every positional sequence, in order, and for every keyword the i-th element of its sequence, with no other keys |
| `BaseMultiprocess.Batch` | multiprocess_wraps/base_multiprocess.py:121-124 | no sequences gives IndexError, disagreeing lengths give AssertionError, every non-empty batch whose sequences all have length `n` is accepted with exactly `n` invocations, and an accepted batch's i-th invocation is built from index i |
| `BaseMultiprocess.Collect` | multiprocess_wraps/base_multiprocess.py:136-143 | reference definition of the collection loop: a success has one result per invocation, each the value that invocation returned; a failure is the exception of the first invocation, in index order, that raised |
| `BaseMultiprocess.CollectAllReturn` | multiprocess_wraps/base_multiprocess.py:136-143 | when every invocation returns, the results are one per invocation, the i-th being the i-th invocation's value |
| `BaseMultiprocess.CollectFirstThrow` | multiprocess_wraps/base_multiprocess.py:141-142 | when some invocation raises, the call raises the exception of the first one in index order and returns no partial list |
| `BaseMultiprocess.CollectFailedPrefix` | multiprocess_wraps/base_multiprocess.py:138-142 | once the invocations up to some index have failed, the later ones do not change the outcome |
| `BaseMultiprocess.Run` | multiprocess_wraps/base_multiprocess.py:117-143 | reference result of `__call__`: IndexError with no sequences, AssertionError on disagreeing lengths, and a successful result whose length is the batch length with `result[i]` the target's value on index i's arguments |
| `BaseMultiprocess.RunReturns` | multiprocess_wraps/base_multiprocess.py:136-143 | a valid batch of length `n` (including `n = 0`) whose invocations all return gives exactly `n` results with `result[i] == func([x[i] for x in args], {k: v[i]})` |
| `BaseMultiprocess.RunThrows` | multiprocess_wraps/base_multiprocess.py:141-142 | a valid batch whose first raising invocation is at index `k` makes the call raise that exception |
| `BaseMultiprocess.Dispatch` | multiprocess_wraps/base_multiprocess.py:136-143 | the loop over indices computes the sequential reference collection; on success it invoked the target once per index, on failure exactly up to and including the first raising index |
| `BaseMultiprocess.Call` | multiprocess_wraps/base_multiprocess.py:117-143 | `__call__` returns the reference result; a batch that fails validation invokes the target zero times; a successful call invokes it once per index; a failing call stops at the first raising index |
| `CudaMultiprocess.ParseGpuIds` | multiprocess_wraps/multiprocess_enable_cuda.py:17 | one device name per comma-separated piece (commas + 1, so `''` gives one name), each `cuda:` followed by a comma-free index, and the indices joined with `,` give the option string back |
| `CudaMultiprocess.ParseJoin` | multiprocess_wraps/multiprocess_enable_cuda.py:17 | parsing the comma-join of comma-free indices gives `cuda:` + each index, in order |
| `CudaMultiprocess.DefaultGpuIdsParse` | multiprocess_wraps/multiprocess_enable_cuda.py:16-17 | the default `'0'` parses to exactly `["cuda:0"]` |
| `CudaMultiprocess.EmptyGpuIdsParse` | multiprocess_wraps/multiprocess_enable_cuda.py:17 | an empty `gpu_ids` parses to exactly `["cuda:"]` |
| `CudaMultiprocess.New` | multiprocess_wraps/multiprocess_enable_cuda.py:14-24 | a non-string `gpu_ids` is an AttributeError first; then the base TypeError and ValueError take precedence over the CUDA probe; with valid base arguments construction succeeds exactly when CUDA is available and otherwise raises AssertionError; the base pool is built from the options with `gpu_ids` replaced by the parsed list |
| `CudaMultiprocess.DefaultDevices` | multiprocess_wraps/multiprocess_enable_cuda.py:16-19 | without a `gpu_ids` option the pool's device list and the stored `gpu_ids` are exactly `["cuda:0"]` |
| `CudaMultiprocess.Call` | multiprocess_wraps/multiprocess_enable_cuda.py:26-30 | the accelerator call returns exactly the base call's result; it invokes the target zero times on a rejected batch, once per index on success, and up to the first raising index on failure |
| `Multiprocess.New` | multiprocess_wraps/__init__.py:14-26 | the wrapper keeps the requested worker count, the raw `cuda` option and the options; a truthy `cuda` builds the accelerator variant and anything else the standard one, each from the same target, worker count and options, and the wrapper fails exactly with that variant's error |
| `Multiprocess.CudaDefaultsOff` | multiprocess_wraps/__init__.py:16-26 | without a `cuda` option the standard variant is built and the CUDA probe does not affect the outcome |
| `Multiprocess.SameArguments` | multiprocess_wraps/__init__.py:19-26 | the serving pool runs the given target, records the requested `n_workers`, keeps every caller option other than `func_name`, `multiprocess_type` and, in accelerator mode, `gpu_ids`, and runs the clamped count |
| `Multiprocess.Call` | multiprocess_wraps/__init__.py:28-29 | the wrapper's call returns exactly what the chosen variant's base pool returns, with the same invocation count: zero on a rejected batch, once per index on success, up to the first raising index on failure |
| `Scenarios.AddBatch` | multiprocess_wraps/base_multiprocess.py:136-143 | `add` over `[1, 2, 3]` and `[10, 20, 30]` gives `[11, 22, 33]` |
| `Scenarios.AddByKeyword` | multiprocess_wraps/base_multiprocess.py:139-142 | `add` over positional `[1, 2, 3]` and keyword `y=[10, 20, 30]` binds `y` by name and gives `[11, 22, 33]` |
| `Scenarios.DefaultWorkerCount` | multiprocess_wraps/base_multiprocess.py:15-45 | the default `n_workers=4` on 2 CPUs runs 2 workers while the configuration records 4 |
| `Scenarios.MismatchedBatch` | multiprocess_wraps/base_multiprocess.py:121-124 | a positional sequence of length 3 beside a keyword sequence of length 2 raises AssertionError |
| `Scenarios.ClampedWorkers` | multiprocess_wraps/base_multiprocess.py:31-45 | 100 requested workers on 8 CPUs run 8 while the configuration records 100 |
| `Scenarios.FailureInTheMiddle` | multiprocess_wraps/base_multiprocess.py:141-142 | with a target that raises only at index 1 of 3, the call raises that exception although indices 0 and 2 return, so no partial list is exposed |

## Left out

- The process pool (`mp.Pool`, `apply_async`, worker processes, pickling, the
  bound on concurrent workers): operating-system plumbing in a library this
  model does not contain. A call is modelled as the sequential indexed map it
  is observably equivalent to; the effective worker count is computed and
  stored but does not influence results.
- `mp.set_start_method('spawn', force=True)` in the accelerator call: a
  process-wide side effect with no effect on the returned results.
- The `torch` import (an ImportError when it is missing) and
  `torch.cuda.is_available()`: a foreign runtime; the probe is the boolean
  parameter `cudaAvailable`.
- `mp.cpu_count()`: the parameter `cpuCount`.
- Verbose printing and the JSON dump of the configuration: diagnostic output
  only; the raw `verbose` option is stored.
- `_get_func_name`: the target's `__name__` is a field of `Target`; its
  `functools.partial` branch cannot be reached after the `FunctionType`
  check.
- `_parameter_wraps`: abandoned according to its own docstring, and a
  duplicate of `_exec`.
- `multiprocess_no_cuda`: its constructor only delegates; it is the base pool
  with the class name `multiprocess_no_cuda` (`Kind.NoCuda`).
- Python's dynamic typing: all argument values share one type `V`, argument
  sequences are `seq`, the worker count is an integer (a float count is not
  modelled), and the target is a total function returning a value or an
  exception.
- Option values other than None, bool, int, str and list of str: `Value`
  has only these five kinds. So a `bytes` `gpu_ids` (which fails at `split`
  with a TypeError, not an AttributeError) and the other values Python
  treats as false (`0.0`, `{}`, `()` and the like) are not modelled.
- Keyword order: the keyword arguments of an invocation are an unordered
  `map`, so a target whose result depends on the order of its `**kwargs`
  (which Python preserves) is not modelled.
- The `func` and `n_workers` properties are the `func` and `nWorkers` fields
  of `Pool`.

=== FILE: aligner.dfy ===
/** The argument aligner, `_BaseMultiprocess._check_args`: a batch is the
    positional argument sequences `args` and the keyword argument sequences
    `kwargs`; it is accepted when all of them share one length. */
module Aligner {
  import opened Failures

  /** The call supplied no argument sequence at all. */
  predicate NoArguments<V>(args: seq<seq<V>>, kwargs: map<string, seq<V>>) {
    |args| == 0 && |kwargs| == 0
  }

  /** Every positional and every keyword sequence has length `n`. */
  predicate AllOfLength<V>(args: seq<seq<V>>, kwargs: map<string, seq<V>>, n: int) {
    && (forall j :: 0 <= j < |args| ==> |args[j]| == n)
    && (forall k :: k in kwargs ==> |kwargs[k]| == n)
  }

  /** Some length is shared by all sequences of the batch. */
  ghost predicate Aligned<V>(args: seq<seq<V>>, kwargs: map<string, seq<V>>) {
    exists n :: AllOfLength(args, kwargs, n)
  }

  /** The set of lengths of all argument sequences. */
  function Lengths<V>(args: seq<seq<V>>, kwargs: map<string, seq<V>>): set<nat> {
    (set j | 0 <= j < |args| :: |args[j]|) + (set k | k in kwargs :: |kwargs[k]|)
  }

  /** Once any sequence is present, a shared length is the only length. */
  lemma LengthsOfAligned<V>(args: seq<seq<V>>, kwargs: map<string, seq<V>>)
    ensures forall n :: !NoArguments(args, kwargs) && AllOfLength(args, kwargs, n) ==> Lengths(args, kwargs) == {n}
  {
    var ls := Lengths(args, kwargs);
    forall n | !NoArguments(args, kwargs) && AllOfLength(args, kwargs, n)
      ensures ls == {n}
    {
      if |args| > 0 {
        assert |args[0]| in ls;
      } else {
        var k :| k in kwargs;
        assert |kwargs[k]| in ls;
      }
    }
  }

  lemma SingleLength<V>(args: seq<seq<V>>, kwargs: map<string, seq<V>>, n: nat)
    requires Lengths(args, kwargs) == {n}
    ensures AllOfLength(args, kwargs, n)
  {
    var ls := Lengths(args, kwargs);
    forall j | 0 <= j < |args| ensures |args[j]| == n {
      assert |args[j]| in ls;
    }
    forall k | k in kwargs ensures |kwargs[k]| == n {
      assert |kwargs[k]| in ls;
    }
  }

  lemma LengthsEmpty<V>(args: seq<seq<V>>, kwargs: map<string, seq<V>>)
    ensures Lengths(args, kwargs) == {} <==> NoArguments(args, kwargs)
  {
    if |args| > 0 {
      assert |args[0]| in Lengths(args, kwargs);
    } else if |kwargs| > 0 {
      var k :| k in kwargs;
      assert |kwargs[k]| in Lengths(args, kwargs);
    }
  }

  lemma SingletonSet(s: set<nat>)
    requires |s| == 1
    ensures exists x :: s == {x}
    ensures forall x, y :: x in s && y in s ==> x == y
  {
    var x :| x in s;
    assert |s - {x}| == 0;
    assert s == {x};
  }

  /** `_check_args`: `(n, true)` when all sequences have length `n`,
      `(-1, false)` when their lengths disagree, and an IndexError when there
      are no sequences (the set of lengths is empty and `length[0]` fails). */
  function CheckArgs<V>(args: seq<seq<V>>, kwargs: map<string, seq<V>>): (r: Result<(int, bool)>)
    ensures r.Err? <==> NoArguments(args, kwargs)
    ensures r.Err? ==> r.error == IndexError
    ensures r.Ok? && r.value.1 ==> r.value.0 >= 0 && AllOfLength(args, kwargs, r.value.0)
    ensures forall n :: !NoArguments(args, kwargs) && AllOfLength(args, kwargs, n) ==> r == Ok((n, true))
    ensures r == Ok((-1, false)) <==> !NoArguments(args, kwargs) && !Aligned(args, kwargs)
    ensures r.Ok? && !r.value.1 ==> r.value.0 == -1
  {
    var ls := Lengths(args, kwargs);
    LengthsEmpty(args, kwargs);
    LengthsOfAligned(args, kwargs);
    if |ls| > 1 then
      Ok((-1, false))
    else if |ls| == 0 then
      Err(IndexError)
    else
      SingletonSet(ls);
      var n :| n in ls;
      SingleLength(args, kwargs, n);
      Ok((n, true))
  }
}

=== FILE: base_multiprocess.dfy ===
/** `_BaseMultiprocess`: construction-time validation of the target and the
    worker count, and the batch call, which validates the batch and applies the
    target once per index, collecting results in index order.

    Each submission to the process pool is followed at once by a blocking wait
    for its result, so the observable behaviour of a call is a sequential map
    over the indices of the batch that stops at the first index whose
    invocation raises; that exception becomes the call's exception. */
module BaseMultiprocess {
  import opened Failures
  import opened Config
  import opened Aligner

  /** Worker count used when the caller gives none. */
  const DefaultWorkers: int := 4

  /** What one invocation of the target did. */
  datatype Outcome<+R> = Returned(value: R) | Threw(exception: string)

  /** The sorts of Python callables a caller can hand in; only plain (user
      defined or lambda) functions are instances of `FunctionType`. */
  datatype CallableKind = PlainFunction | BuiltinFunction | BoundMethod | Partial | CallableObject

  /** The target: its `__name__`, its sort, and what calling it with
      positional arguments and keyword arguments does. */
  datatype Target<!V, R> = Target(name: string, kind: CallableKind, apply: (seq<V>, map<string, V>) -> Outcome<R>) {
    predicate IsFunctionType() {
      kind == PlainFunction
    }
  }

  /** The concrete class being constructed; its name is recorded in the
      stored configuration. */
  datatype Kind = Base | NoCuda | EnableCuda

  function ClassName(kind: Kind): string {
    match kind
    case Base => "_BaseMultiprocess"
    case NoCuda => "multiprocess_no_cuda"
    case EnableCuda => "multiprocess_enable_cuda"
  }

  /** The keys the constructor writes into the stored configuration. */
  const ReservedKeys: set<string> := {"func_name", "n_workers", "multiprocess_type"}

  /** A constructed pool: the target, the effective worker count, the raw
      `verbose` option, the stored configuration and the concrete class. */
  datatype Pool<!V, R> = Pool(func: Target<V, R>, nWorkers: int, verbose: Value, multiKwargs: Options, kind: Kind)

  function Min(a: int, b: int): int {
    if a <= b then a else b
  }

  /** `_BaseMultiprocess.__init__`. The target is checked first (TypeError),
      then the worker count is clamped to the CPU count and rejected when not
      positive (ValueError). The stored configuration is the options with the
      target's name, the REQUESTED worker count and the class name added. */
  function New<V, R>(func: Target<V, R>, nWorkers: int, opts: Options, kind: Kind, cpuCount: nat): (r: Result<Pool<V, R>>)
    ensures !func.IsFunctionType() ==> r == Err(TypeError)
    ensures func.IsFunctionType() ==> (r.Err? <==> nWorkers <= 0 || cpuCount == 0)
    ensures func.IsFunctionType() && r.Err? ==> r.error == ValueError(nWorkers)
    ensures r.Ok? ==>
      var p := r.value;
      && p.func == func
      && p.kind == kind
      && 1 <= p.nWorkers <= nWorkers && p.nWorkers <= cpuCount
      && (p.nWorkers == nWorkers || p.nWorkers == cpuCount)
      && p.verbose == Get(opts, "verbose", Bool(false))
      && p.multiKwargs.Keys == opts.Keys + ReservedKeys
      && p.multiKwargs["func_name"] == Str(func.name)
      && p.multiKwargs["n_workers"] == Int(nWorkers)
      && p.multiKwargs["multiprocess_type"] == Str(ClassName(kind))
      && (forall k :: k in opts && k !in ReservedKeys ==> p.multiKwargs[k] == opts[k])
  {
    if !func.IsFunctionType() then
      Err(TypeError)
    else
      var effective := Min(nWorkers, cpuCount);
      if effective <= 0 then
        Err(ValueError(nWorkers))
      else
        var verbose := Get(opts, "verbose", Bool(false));
        var stored := opts["func_name" := Str(func.name)]["n_workers" := Int(nWorkers)]["multiprocess_type" := Str(ClassName(kind))];
        Ok(Pool(func, effective, verbose, stored, kind))
  }

  /** One index's arguments: the positional list and the keyword dictionary. */
  datatype Invocation<V> = Invocation(args: seq<V>, kwargs: map<string, V>)

  /** `_exec`: unpack one invocation's arguments and call the target with
      them, positional arguments first and keyword arguments by name. */
  function Exec<V, R>(params: Invocation<V>, func: Target<V, R>): Outcome<R> {
    func.apply(params.args, params.kwargs)
  }

  /** `[x[i] for x in args]` */
  function ArgsAt<V>(args: seq<seq<V>>, i: nat): seq<V>
    requires forall j :: 0 <= j < |args| ==> i < |args[j]|
  {
    seq(|args|, j requires 0 <= j < |args| => args[j][i])
  }

  /** `{k: v[i] for k, v in kwargs.items()}` */
  function KwargsAt<V>(kwargs: map<string, seq<V>>, i: nat): map<string, V>
    requires forall k :: k in kwargs ==> i < |kwargs[k]|
  {
    map k | k in kwargs :: kwargs[k][i]
  }

  /** The invocation at index `i` of a batch whose sequences all have length `n`. */
  function UnitAt<V>(args: seq<seq<V>>, kwargs: map<string, seq<V>>, n: nat, i: nat): (u: Invocation<V>)
    requires AllOfLength(args, kwargs, n) && i < n
    ensures |u.args| == |args| && forall j :: 0 <= j < |args| ==> u.args[j] == args[j][i]
    ensures u.kwargs.Keys == kwargs.Keys && forall k :: k in kwargs ==> u.kwargs[k] == kwargs[k][i]
  {
    Invocation(ArgsAt(args, i), KwargsAt(kwargs, i))
  }

  /** The invocations of a batch whose sequences all have length `n`, in index order. */
  function Units<V>(args: seq<seq<V>>, kwargs: map<string, seq<V>>, n: nat): (units: seq<Invocation<V>>)
    requires AllOfLength(args, kwargs, n)
    ensures |units| == n
  {
    seq(n, i requires 0 <= i < n => UnitAt(args, kwargs, n, i))
  }

  /** The batch validation at the head of `__call__`: the invocations, one per
      index in order, or the error raised before anything is dispatched. */
  function Batch<V>(args: seq<seq<V>>, kwargs: map<string, seq<V>>): (r: Result<seq<Invocation<V>>>)
    ensures NoArguments(args, kwargs) ==> r == Err(IndexError)
    ensures !NoArguments(args, kwargs) && !Aligned(args, kwargs) ==> r == Err(AssertionError(LengthMismatch))
    ensures forall n :: !NoArguments(args, kwargs) && AllOfLength(args, kwargs, n) ==> r.Ok? && |r.value| == n
    ensures r.Ok? ==> !NoArguments(args, kwargs) && AllOfLength(args, kwargs, |r.value|)
    ensures r.Ok? ==> forall i :: 0 <= i < |r.value| ==> r.value[i] == UnitAt(args, kwargs, |r.value|, i)
  {
    var (length, legal) :- CheckArgs(args, kwargs);
    if !legal then
      Err(AssertionError(LengthMismatch))
    else
      Ok(Units(args, kwargs, length))
  }

  /** Running `_exec` on the i-th invocation of a batch is the direct call
      `func(*[x[i] for x in args], **{k: v[i] for k, v in kwargs.items()})`
      that `__call__` submits to the pool. */
  lemma ExecAtIndex<V, R>(func: Target<V, R>, args: seq<seq<V>>, kwargs: map<string, seq<V>>, n: nat, i: nat)
    requires AllOfLength(args, kwargs, n) && i < n
    ensures Exec(Units(args, kwargs, n)[i], func) == func.apply(ArgsAt(args, i), KwargsAt(kwargs, i))
  {
  }

  /** The invocations before index `k` all return, and the one at `k` raises:
      `k` is the first index whose invocation raises. */
  ghost predicate FirstThrowAt<V, R>(func: Target<V, R>, units: seq<Invocation<V>>, k: nat) {
    && k < |units|
    && Exec(units[k], func).Threw?
    && forall i :: 0 <= i < k ==> Exec(units[i], func).Returned?
  }

  /** A first raising invocation of a prefix is the first of the whole sequence. */
  lemma FirstThrowInPrefix<V, R>(func: Target<V, R>, units: seq<Invocation<V>>, m: nat)
    requires m <= |units|
    ensures forall k: nat :: FirstThrowAt(func, units[..m], k) ==> FirstThrowAt(func, units, k) && units[..m][k] == units[k]
  {
  }

  /** The sequential map over the invocations, stopping at the first one
      that raises. Reference definition of the result-collection loop. */
  function Collect<V, R>(func: Target<V, R>, units: seq<Invocation<V>>): (r: Result<seq<R>>)
    ensures r.Ok? ==> |r.value| == |units|
    ensures r.Ok? ==> forall i :: 0 <= i < |units| ==> Exec(units[i], func) == Returned(r.value[i])
    ensures r.Err? ==> r.error.Raised? && exists k: nat :: FirstThrowAt(func, units, k) && Exec(units[k], func).exception == r.error.exception
    decreases |units|
  {
    if |units| == 0 then
      Ok([])
    else
      var init := units[..|units| - 1];
      var prefix := Collect(func, init);
      if prefix.Err? then
        FirstThrowInPrefix(func, units, |units| - 1);
        Err(prefix.error)
      else
        match Exec(units[|units| - 1], func)
        case Threw(e) =>
          assert forall i :: 0 <= i < |init| ==> init[i] == units[i];
          assert FirstThrowAt(func, units, |units| - 1);
          Err(Raised(e))
        case Returned(v) => Ok(prefix.value + [v])
  }

  /** When every invocation returns, the collection succeeds with one result
      per invocation, in index order (a consequence of `Collect`'s contract). */
  lemma CollectAllReturn<V, R>(func: Target<V, R>, units: seq<Invocation<V>>)
    requires forall i :: 0 <= i < |units| ==> Exec(units[i], func).Returned?
    ensures Collect(func, units).Ok?
    ensures |Collect(func, units).value| == |units|
    ensures forall i :: 0 <= i < |units| ==> Collect(func, units).value[i] == Exec(units[i], func).value
  {
  }

  /** When some invocation raises, the collection fails with the exception of
      the first one that does: the first raising index is unique. */
  lemma CollectFirstThrow<V, R>(func: Target<V, R>, units: seq<Invocation<V>>, k: nat)
    requires FirstThrowAt(func, units, k)
    ensures Collect(func, units) == Err(Raised(Exec(units[k], func).exception))
  {
  }

  /** The collection of a prefix is the collection of the whole as soon as
      the prefix has failed. */
  lemma CollectFailedPrefix<V, R>(func: Target<V, R>, units: seq<Invocation<V>>, n: nat)
    requires n <= |units|
    requires Collect(func, units[..n]).Err?
    ensures Collect(func, units) == Collect(func, units[..n])
  {
  }

  /** The observable result of `__call__`: the batch error, or the collected
      results of all invocations in index order. */
  function Run<V, R>(pool: Pool<V, R>, args: seq<seq<V>>, kwargs: map<string, seq<V>>): (r: Result<seq<R>>)
    ensures NoArguments(args, kwargs) ==> r == Err(IndexError)
    ensures !NoArguments(args, kwargs) && !Aligned(args, kwargs) ==> r == Err(AssertionError(LengthMismatch))
    ensures r.Ok? ==> !NoArguments(args, kwargs) && AllOfLength(args, kwargs, |r.value|)
    ensures r.Ok? ==> forall i :: 0 <= i < |r.value| ==>
      pool.func.apply(ArgsAt(args, i), KwargsAt(kwargs, i)) == Returned(r.value[i])
  {
    var units :- Batch(args, kwargs);
    Collect(pool.func, units)
  }

  /** A batch of length `n` whose every invocation returns yields exactly
      `n` results, the i-th being the target's value on the i-th arguments;
      this includes the empty batch `n == 0`. */
  lemma RunReturns<V, R>(pool: Pool<V, R>, args: seq<seq<V>>, kwargs: map<string, seq<V>>, n: nat)
    requires !NoArguments(args, kwargs) && AllOfLength(args, kwargs, n)
    requires forall i :: 0 <= i < n ==> pool.func.apply(ArgsAt(args, i), KwargsAt(kwargs, i)).Returned?
    ensures Run(pool, args, kwargs).Ok?
    ensures |Run(pool, args, kwargs).value| == n
    ensures forall i :: 0 <= i < n ==>
      Run(pool, args, kwargs).value[i] == pool.func.apply(ArgsAt(args, i), KwargsAt(kwargs, i)).value
  {
  }

  /** A valid batch whose invocation at index `k` is the first to raise makes
      the whole call raise that exception; no partial list is returned. */
  lemma RunThrows<V, R>(pool: Pool<V, R>, args: seq<seq<V>>, kwargs: map<string, seq<V>>, n: nat, k: nat)
    requires !NoArguments(args, kwargs) && AllOfLength(args, kwargs, n) && k < n
    requires forall i :: 0 <= i < k ==> pool.func.apply(ArgsAt(args, i), KwargsAt(kwargs, i)).Returned?
    requires pool.func.apply(ArgsAt(args, k), KwargsAt(kwargs, k)).Threw?
    ensures Run(pool, args, kwargs) == Err(Raised(pool.func.apply(ArgsAt(args, k), KwargsAt(kwargs, k)).exception))
  {
    var units := Batch(args, kwargs).value;
    assert |units| == n;
    assert FirstThrowAt(pool.func, units, k);
    CollectFirstThrow(pool.func, units, k);
  }

  /** The main iteration of `__call__` over a valid batch of length `n`: for
      each index in order build its arguments, run the target and wait for its
      result. `calls` is the number of times the target was invoked. */
  method Dispatch<V, R>(func: Target<V, R>, args: seq<seq<V>>, kwargs: map<string, seq<V>>, n: nat)
    returns (r: Result<seq<R>>, calls: nat)
    requires AllOfLength(args, kwargs, n)
    ensures r == Collect(func, Units(args, kwargs, n))
    ensures r.Ok? ==> calls == n
    ensures r.Err? ==> 1 <= calls && FirstThrowAt(func, Units(args, kwargs, n), calls - 1)
  {
    ghost var units := Units(args, kwargs, n);
    var results := [];
    calls := 0;
    var idx := 0;
    while idx < n
      invariant idx <= n
      invariant calls == idx
      invariant |results| == idx
      invariant forall i :: 0 <= i < idx ==> Exec(units[i], func) == Returned(results[i])
    {
      var unit := Invocation(ArgsAt(args, idx), KwargsAt(kwargs, idx));
      assert unit == units[idx];
      var outcome := Exec(unit, func);
      calls := calls + 1;
      if outcome.Threw? {
        r := Err(Raised(outcome.exception));
        assert FirstThrowAt(func, units, idx);
        CollectFirstThrow(func, units, idx);
        return;
      }
      results := results + [outcome.value];
      idx := idx + 1;
    }
    CollectAllReturn(func, units);
    assert Collect(func, units).value == results;
    r := Ok(results);
  }

  /** `_BaseMultiprocess.__call__`: validate the batch, then dispatch it.
      A batch that fails validation invokes the target zero times. */
  method Call<V, R>(pool: Pool<V, R>, args: seq<seq<V>>, kwargs: map<string, seq<V>>) returns (r: Result<seq<R>>, calls: nat)
    ensures r == Run(pool, args, kwargs)
    ensures Batch(args, kwargs).Err? ==> calls == 0
    ensures Batch(args, kwargs).Ok? && r.Ok? ==> calls == |Batch(args, kwargs).value|
    ensures Batch(args, kwargs).Ok? && r.Err? ==> 1 <= calls && FirstThrowAt(pool.func, Batch(args, kwargs).value, calls - 1)
  {
    var checked := CheckArgs(args, kwargs);
    if checked.Err? {
      return Err(checked.error), 0;
    }
    var (length, legal) := checked.value;
    if !legal {
      return Err(AssertionError(LengthMismatch)), 0;
    }
    assert Batch(args, kwargs) == Ok(Units(args, kwargs, length));
    r, calls := Dispatch(pool.func, args, kwargs, length);
  }
}

=== FILE: config.dfy ===
/** The keyword options a pool is constructed with (`**multi_kwargs`): a
    dictionary from option names to dynamically typed values. */
module Config {

  /** The option values the package reads or stores. */
  datatype Value =
    | NoneValue
    | Bool(b: bool)
    | Int(i: int)
    | Str(s: string)
    | StrList(items: seq<string>)

  type Options = map<string, Value>

  /** `opts.get(key, default)` */
  function Get(opts: Options, key: string, default: Value): Value {
    if key in opts then opts[key] else default
  }

  /** The option values Python treats as false. */
  const Falsy: set<Value> := {NoneValue, Bool(false), Int(0), Str(""), StrList([])}

  /** Python truthiness of an option value, as used by `if value:`: every
      value except `None`, `False`, `0`, `''` and `[]` is true. */
  predicate Truthy(v: Value)
    ensures Truthy(v) <==> v !in Falsy
  {
    match v
    case NoneValue => false
    case Bool(b) => b
    case Int(i) => i != 0
    case Str(s) => s != ""
    case StrList(items) => items != []
  }
}

=== FILE: failures.dfy ===
/** The exceptions the package raises, and a failure-compatible Result that
    carries either a value or one of them. */
module Failures {

  /** Why an AssertionError was raised: the package raises it for two
      unrelated reasons, with different messages. */
  datatype AssertReason =
    | LengthMismatch   // "All input parameters should be of the same length."
    | CudaUnavailable  // "Try to use CUDA while no available CUDA devices."

  datatype Error =
    | TypeError                            // the target is not a plain function
    | ValueError(nWorkers: int)            // the message echoes the requested count
    | AssertionError(reason: AssertReason)
    | IndexError                           // a batch with no argument sequences at all
    | AttributeError                       // `gpu_ids` is not a string, so it has no `split`
    | Raised(exception: string)            // an exception of the target, re-raised by the caller

  datatype Result<+T> = Ok(value: T) | Err(error: Error) {

    predicate IsFailure() {
      Err?
    }

    function PropagateFailure<U>(): Result<U>
      requires Err?
    {
      Err(error)
    }

    function Extract(): T
      requires Ok?
    {
      value
    }
  }
}

=== FILE: multiprocess.dfy ===
/** The package's entry point, class `multiprocess`: it records the requested
    worker count and the `cuda` option, builds the accelerator variant when
    that option is truthy and the standard variant otherwise, and forwards
    every call to the variant it built. */
module Multiprocess {
  import opened Failures
  import opened Config
  import opened BaseMultiprocess
  import CudaMultiprocess

  /** The variant chosen at construction. The standard variant is a
      `multiprocess_no_cuda`, which adds nothing to the base pool. */
  datatype Mode<!V, R> = Standard(pool: Pool<V, R>) | Cuda(cudaPool: CudaMultiprocess.CudaPool<V, R>)

  /** The base pool that serves the calls of either variant. */
  function Engine<V, R>(mode: Mode<V, R>): Pool<V, R> {
    match mode
    case Standard(p) => p
    case Cuda(c) => c.base
  }

  /** A wrapper: the requested (unclamped) worker count, the raw `cuda`
      option, the options as given, and the variant. */
  datatype Wrapper<!V, R> = Wrapper(nWorkers: int, cuda: Value, multiKwargs: Options, func: Mode<V, R>)

  /** `multi_kwargs.get('cuda', False)` */
  function CudaOption(opts: Options): Value {
    Get(opts, "cuda", Bool(false))
  }

  /** `multiprocess.__init__`. Both variants receive the same target, the same
      requested worker count and the same options; the wrapper fails exactly
      when, and with the error that, the chosen variant's constructor does. */
  function New<V, R>(func: Target<V, R>, nWorkers: int, opts: Options, cpuCount: nat, cudaAvailable: bool)
    : (r: Result<Wrapper<V, R>>)
    ensures r.Ok? ==> r.value.nWorkers == nWorkers && r.value.cuda == CudaOption(opts) && r.value.multiKwargs == opts
    ensures r.Ok? ==> (r.value.func.Cuda? <==> Truthy(CudaOption(opts)))
    ensures Truthy(CudaOption(opts)) ==>
      var v := CudaMultiprocess.New(func, nWorkers, opts, cpuCount, cudaAvailable);
      && (r.Ok? <==> v.Ok?)
      && (r.Ok? ==> r.value.func.cudaPool == v.value)
      && (r.Err? ==> r.error == v.error)
    ensures !Truthy(CudaOption(opts)) ==>
      var v := BaseMultiprocess.New(func, nWorkers, opts, NoCuda, cpuCount);
      && (r.Ok? <==> v.Ok?)
      && (r.Ok? ==> r.value.func.pool == v.value)
      && (r.Err? ==> r.error == v.error)
  {
    var cuda := CudaOption(opts);
    if Truthy(cuda) then
      var inner :- CudaMultiprocess.New(func, nWorkers, opts, cpuCount, cudaAvailable);
      Ok(Wrapper(nWorkers, cuda, opts, Cuda(inner)))
    else
      var inner :- BaseMultiprocess.New(func, nWorkers, opts, NoCuda, cpuCount);
      Ok(Wrapper(nWorkers, cuda, opts, Standard(inner)))
  }

  /** The `cuda` option defaults to off: without it the standard variant is
      built, and the CUDA probe has no influence on the outcome. */
  lemma CudaDefaultsOff<V, R>(func: Target<V, R>, nWorkers: int, opts: Options, cpuCount: nat)
    requires "cuda" !in opts
    ensures New(func, nWorkers, opts, cpuCount, true) == New(func, nWorkers, opts, cpuCount, false)
    ensures New(func, nWorkers, opts, cpuCount, true).Ok? ==> New(func, nWorkers, opts, cpuCount, true).value.func.Standard?
  {
  }

  /** Whichever variant is chosen, the pool it serves calls from runs the
      given target, and its stored configuration keeps the requested worker
      count and every option the caller gave (other than the reserved keys
      and, in accelerator mode, `gpu_ids`), while the pool itself runs on the
      count clamped to the CPU count. */
  lemma SameArguments<V, R>(func: Target<V, R>, nWorkers: int, opts: Options, cpuCount: nat, cudaAvailable: bool)
    requires New(func, nWorkers, opts, cpuCount, cudaAvailable).Ok?
    ensures
      var w := New(func, nWorkers, opts, cpuCount, cudaAvailable).value;
      var p := Engine(w.func);
      && p.func == func
      && p.nWorkers <= nWorkers && p.nWorkers <= cpuCount
      && (p.nWorkers == nWorkers || p.nWorkers == cpuCount)
      && p.multiKwargs["n_workers"] == Int(nWorkers)
      && (forall k :: k in opts && k !in ReservedKeys && k != "gpu_ids" ==> p.multiKwargs[k] == opts[k])
  {
  }

  /** `multiprocess.__call__`: exactly the result of the chosen variant's call. */
  method Call<V, R>(w: Wrapper<V, R>, args: seq<seq<V>>, kwargs: map<string, seq<V>>) returns (r: Result<seq<R>>, calls: nat)
    ensures r == Run(Engine(w.func), args, kwargs)
    ensures Batch(args, kwargs).Err? ==> calls == 0
    ensures Batch(args, kwargs).Ok? && r.Ok? ==> calls == |Batch(args, kwargs).value|
    ensures Batch(args, kwargs).Ok? && r.Err? ==> 1 <= calls && FirstThrowAt(Engine(w.func).func, Batch(args, kwargs).value, calls - 1)
  {
    match w.func
    case Standard(p) =>
      r, calls := BaseMultiprocess.Call(p, args, kwargs);
    case Cuda(c) =>
      r, calls := CudaMultiprocess.Call(c, args, kwargs);
  }
}

=== FILE: multiprocess_enable_cuda.dfy ===
/** `multiprocess_enable_cuda`: the accelerator variant. It parses the
    `gpu_ids` option into device names before the base construction runs, then
    probes for CUDA; its call delegates to the base call. */
module CudaMultiprocess {
  import opened Failures
  import opened Config
  import opened Strings
  import opened BaseMultiprocess

  const DevicePrefix: string := "cuda:"

  /** Value of `gpu_ids` when the option is absent. */
  const DefaultGpuIds: string := "0"

  /** A device name: the prefix followed by a comma-free device index. */
  predicate IsDeviceName(d: string) {
    |DevicePrefix| <= |d| && d[..|DevicePrefix|] == DevicePrefix && ',' !in d[|DevicePrefix|..]
  }

  /** The device indices of a list of device names: each name without its prefix. */
  function Indices(ids: seq<string>): (pieces: seq<string>)
    requires forall i :: 0 <= i < |ids| ==> IsDeviceName(ids[i])
    ensures |pieces| == |ids|
    ensures forall i :: 0 <= i < |ids| ==> DevicePrefix + pieces[i] == ids[i]
  {
    var pieces := seq(|ids|, i requires 0 <= i < |ids| && IsDeviceName(ids[i]) => ids[i][|DevicePrefix|..]);
    assert forall i :: 0 <= i < |ids| ==> ids[i] == ids[i][..|DevicePrefix|] + pieces[i];
    pieces
  }

  /** `list(map(lambda x: f'cuda:{x}', gpu_ids.split(',')))`: one device name
      per comma-separated piece, and the pieces joined back with commas give
      the option string. */
  function ParseGpuIds(s: string): (ids: seq<string>)
    ensures |ids| == Count(s, ',') + 1
    ensures forall i :: 0 <= i < |ids| ==> IsDeviceName(ids[i])
    ensures Join(Indices(ids), ',') == s
  {
    var pieces := Split(s, ',');
    var ids := seq(|pieces|, i requires 0 <= i < |pieces| => DevicePrefix + pieces[i]);
    assert forall i :: 0 <= i < |ids| ==> ids[i][|DevicePrefix|..] == pieces[i];
    assert Indices(ids) == pieces;
    ids
  }

  /** The other direction of the round trip: parsing the comma-join of
      comma-free indices gives one device name per index, in order. */
  lemma ParseJoin(pieces: seq<string>)
    requires |pieces| >= 1
    requires forall i :: 0 <= i < |pieces| ==> ',' !in pieces[i]
    ensures |ParseGpuIds(Join(pieces, ','))| == |pieces|
    ensures forall i :: 0 <= i < |pieces| ==> ParseGpuIds(Join(pieces, ','))[i] == DevicePrefix + pieces[i]
  {
    SplitJoin(pieces, ',');
  }

  /** The default option names exactly the first device. */
  lemma DefaultGpuIdsParse()
    ensures ParseGpuIds(DefaultGpuIds) == ["cuda:0"]
  {
    assert Count(DefaultGpuIds, ',') == 0 by {
      assert DefaultGpuIds[1..] == "";
    }
    var ids := ParseGpuIds(DefaultGpuIds);
    assert |ids| == 1;
    assert Join(Indices(ids), ',') == Indices(ids)[0];
    assert ids[0] == DevicePrefix + DefaultGpuIds;
    assert DevicePrefix + DefaultGpuIds == "cuda:0";
    assert ids == [ids[0]];
  }

  /** An empty option still names one device, with an empty index. */
  lemma EmptyGpuIdsParse()
    ensures ParseGpuIds("") == ["cuda:"]
  {
    var ids := ParseGpuIds("");
    assert |ids| == 1;
    assert Join(Indices(ids), ',') == Indices(ids)[0];
    assert ids[0] == DevicePrefix + "";
    assert DevicePrefix + "" == "cuda:";
    assert ids == [ids[0]];
  }

  /** An accelerator pool: the parsed device names and the base pool. */
  datatype CudaPool<!V, R> = CudaPool(gpuIds: seq<string>, base: Pool<V, R>)

  /** The options the base constructor receives: `gpu_ids` replaced by the
      parsed device names. */
  function WithDevices(opts: Options, ids: seq<string>): Options {
    opts["gpu_ids" := StrList(ids)]
  }

  /** `multiprocess_enable_cuda.__init__`. A `gpu_ids` that is not a string
      fails at `split` (AttributeError) before anything else; then the base
      validation runs (TypeError, ValueError); only then is CUDA probed
      (AssertionError). */
  function New<V, R>(func: Target<V, R>, nWorkers: int, opts: Options, cpuCount: nat, cudaAvailable: bool)
    : (r: Result<CudaPool<V, R>>)
    ensures !Get(opts, "gpu_ids", Str(DefaultGpuIds)).Str? ==> r == Err(AttributeError)
    ensures Get(opts, "gpu_ids", Str(DefaultGpuIds)).Str? && !func.IsFunctionType() ==> r == Err(TypeError)
    ensures Get(opts, "gpu_ids", Str(DefaultGpuIds)).Str? && func.IsFunctionType() && (nWorkers <= 0 || cpuCount == 0)
      ==> r == Err(ValueError(nWorkers))
    ensures Get(opts, "gpu_ids", Str(DefaultGpuIds)).Str? && func.IsFunctionType() && nWorkers > 0 && cpuCount > 0
      ==> (r.Ok? <==> cudaAvailable) && (r.Err? ==> r.error == AssertionError(CudaUnavailable))
    ensures r.Ok? ==>
      && r.value.gpuIds == ParseGpuIds(Get(opts, "gpu_ids", Str(DefaultGpuIds)).s)
      && BaseMultiprocess.New(func, nWorkers, WithDevices(opts, r.value.gpuIds), EnableCuda, cpuCount) == Ok(r.value.base)
  {
    var gpuIds := Get(opts, "gpu_ids", Str(DefaultGpuIds));
    if !gpuIds.Str? then
      Err(AttributeError)
    else
      var ids := ParseGpuIds(gpuIds.s);
      var base :- BaseMultiprocess.New(func, nWorkers, WithDevices(opts, ids), EnableCuda, cpuCount);
      if !cudaAvailable then
        Err(AssertionError(CudaUnavailable))
      else
        Ok(CudaPool(ids, base))
  }

  /** Without a `gpu_ids` option a constructed accelerator pool uses exactly
      the first device, and the stored configuration records that list. */
  lemma DefaultDevices<V, R>(func: Target<V, R>, nWorkers: int, opts: Options, cpuCount: nat, cudaAvailable: bool)
    requires "gpu_ids" !in opts
    requires New(func, nWorkers, opts, cpuCount, cudaAvailable).Ok?
    ensures New(func, nWorkers, opts, cpuCount, cudaAvailable).value.gpuIds == ["cuda:0"]
    ensures New(func, nWorkers, opts, cpuCount, cudaAvailable).value.base.multiKwargs["gpu_ids"] == StrList(["cuda:0"])
  {
    DefaultGpuIdsParse();
  }

  /** `multiprocess_enable_cuda.__call__`: switches the start method and then
      returns exactly what the base call returns. */
  method Call<V, R>(pool: CudaPool<V, R>, args: seq<seq<V>>, kwargs: map<string, seq<V>>) returns (r: Result<seq<R>>, calls: nat)
    ensures r == Run(pool.base, args, kwargs)
    ensures Batch(args, kwargs).Err? ==> calls == 0
    ensures Batch(args, kwargs).Ok? && r.Ok? ==> calls == |Batch(args, kwargs).value|
    ensures Batch(args, kwargs).Ok? && r.Err? ==> 1 <= calls && FirstThrowAt(pool.base.func, Batch(args, kwargs).value, calls - 1)
  {
    r, calls := BaseMultiprocess.Call(pool.base, args, kwargs);
  }
}

=== FILE: scenarios.dfy ===
/** Concrete batches and constructions, worked through the model. */
module Scenarios {
  import opened Failures
  import opened Config
  import opened Aligner
  import opened BaseMultiprocess

  /** `def add(x, y): return x + y`, with Python's argument binding:
      positional arguments fill `x` then `y`, keywords name the rest, and a
      missing, repeated or unknown parameter raises a TypeError. */
  function Add(): Target<int, int> {
    Target("add", PlainFunction, (a: seq<int>, kw: map<string, int>) => AddCall(a, kw))
  }

  function AddCall(a: seq<int>, kw: map<string, int>): Outcome<int> {
    if |a| == 2 && kw.Keys == {} then Returned(a[0] + a[1])
    else if |a| == 1 && kw.Keys == {"y"} then Returned(a[0] + kw["y"])
    else if |a| == 0 && kw.Keys == {"x", "y"} then Returned(kw["x"] + kw["y"])
    else Threw("TypeError")
  }

  /** `def check(x): if x == 2: raise ValueError; return x`, called with `x`
      by position only: any other call, `check(x=1)` included, is modelled as
      a TypeError, which the scenarios below never make. */
  function RejectTwo(): Target<int, int> {
    Target("check", PlainFunction,
      (a: seq<int>, kw: map<string, int>) =>
        if |a| == 1 && kw.Keys == {} then (if a[0] == 2 then Threw("ValueError") else Returned(a[0]))
        else Threw("TypeError"))
  }

  /** `add` over `[1, 2, 3]` and `[10, 20, 30]` gives `[11, 22, 33]`. */
  lemma AddBatch(pool: Pool<int, int>)
    requires pool.func == Add()
    ensures Run(pool, [[1, 2, 3], [10, 20, 30]], map[]) == Ok([11, 22, 33])
  {
    var args: seq<seq<int>> := [[1, 2, 3], [10, 20, 30]];
    var kwargs: map<string, seq<int>> := map[];
    assert AllOfLength(args, kwargs, 3);
    forall i | 0 <= i < 3
      ensures ArgsAt(args, i) == [args[0][i], args[1][i]] && KwargsAt(kwargs, i) == map[]
    {
      assert |ArgsAt(args, i)| == 2;
    }
    RunReturns(pool, args, kwargs, 3);
    var r := Run(pool, args, kwargs).value;
    assert r[0] == 11 && r[1] == 22 && r[2] == 33;
    assert r == [r[0], r[1], r[2]];
  }

  /** A positional sequence of length 3 beside a keyword sequence of length 2
      is rejected before any invocation. */
  lemma MismatchedBatch(pool: Pool<int, int>)
    ensures Run(pool, [[1, 2, 3]], map["y" := [10, 20]]) == Err(AssertionError(LengthMismatch))
  {
    var args: seq<seq<int>> := [[1, 2, 3]];
    var kwargs := map["y" := [10, 20]];
    assert |args[0]| == 3 && |kwargs["y"]| == 2;
  }

  /** Asking for 100 workers on 8 CPUs runs 8, while the stored configuration
      still records 100. */
  lemma ClampedWorkers()
    ensures New(Add(), 100, map[], NoCuda, 8).Ok?
    ensures New(Add(), 100, map[], NoCuda, 8).value.nWorkers == 8
    ensures New(Add(), 100, map[], NoCuda, 8).value.multiKwargs["n_workers"] == Int(100)
  {
  }

  /** `add` over `[1, 2, 3]` with `y=[10, 20, 30]` binds `y` by keyword and
      gives `[11, 22, 33]`. */
  lemma AddByKeyword(pool: Pool<int, int>)
    requires pool.func == Add()
    ensures Run(pool, [[1, 2, 3]], map["y" := [10, 20, 30]]) == Ok([11, 22, 33])
  {
    var args: seq<seq<int>> := [[1, 2, 3]];
    var kwargs := map["y" := [10, 20, 30]];
    assert AllOfLength(args, kwargs, 3);
    forall i | 0 <= i < 3
      ensures ArgsAt(args, i) == [args[0][i]] && KwargsAt(kwargs, i) == map["y" := kwargs["y"][i]]
    {
      assert |ArgsAt(args, i)| == 1;
    }
    RunReturns(pool, args, kwargs, 3);
    var r := Run(pool, args, kwargs).value;
    assert r[0] == 11 && r[1] == 22 && r[2] == 33;
    assert r == [r[0], r[1], r[2]];
  }

  /** Without a worker count the pool asks for 4; on 2 CPUs it runs 2 while
      the stored configuration records 4. */
  lemma DefaultWorkerCount()
    ensures New(Add(), DefaultWorkers, map[], NoCuda, 2).Ok?
    ensures New(Add(), DefaultWorkers, map[], NoCuda, 2).value.nWorkers == 2
    ensures New(Add(), DefaultWorkers, map[], NoCuda, 2).value.multiKwargs["n_workers"] == Int(4)
  {
  }

  /** When the invocation at index 1 of 3 raises, the call raises that
      exception even though the invocations at indices 0 and 2 return: their
      results are not exposed as a partial list. */
  lemma FailureInTheMiddle(pool: Pool<int, int>)
    requires pool.func == RejectTwo()
    ensures pool.func.apply([1], map[]) == Returned(1) && pool.func.apply([3], map[]) == Returned(3)
    ensures Run(pool, [[1, 2, 3]], map[]) == Err(Raised("ValueError"))
  {
    var args: seq<seq<int>> := [[1, 2, 3]];
    var kwargs: map<string, seq<int>> := map[];
    assert AllOfLength(args, kwargs, 3);
    forall i | 0 <= i < 3
      ensures ArgsAt(args, i) == [args[0][i]] && KwargsAt(kwargs, i) == map[]
    {
      assert |ArgsAt(args, i)| == 1;
    }
    assert pool.func.apply(ArgsAt(args, 0), KwargsAt(kwargs, 0)).Returned?;
    assert pool.func.apply(ArgsAt(args, 1), KwargsAt(kwargs, 1)) == Threw("ValueError");
    RunThrows(pool, args, kwargs, 3, 1);
  }
}

=== FILE: strings.dfy ===
/** Splitting a string on a separator character and joining pieces back,
    with the semantics of Python's `str.split(sep)` for an explicit one-character
    separator: every occurrence separates, so empty pieces are kept and the
    empty string splits into one empty piece. */
module Strings {

  /** Number of occurrences of `c` in `s`. */
  function Count(s: string, c: char): nat
    decreases |s|
  {
    if |s| == 0 then 0 else (if s[0] == c then 1 else 0) + Count(s[1..], c)
  }

  /** `pieces[0] + sep + pieces[1] + sep + ... + pieces[|pieces|-1]` */
  function Join(pieces: seq<string>, sep: char): string
    requires |pieces| >= 1
    decreases |pieces|
  {
    if |pieces| == 1 then pieces[0] else pieces[0] + [sep] + Join(pieces[1..], sep)
  }

  /** `s.split(sep)`: one piece more than there are separators, no piece
      holding the separator, and joining the pieces gives `s` back. */
  function Split(s: string, sep: char): (pieces: seq<string>)
    ensures |pieces| == Count(s, sep) + 1
    ensures forall i :: 0 <= i < |pieces| ==> sep !in pieces[i]
    ensures Join(pieces, sep) == s
    decreases |s|
  {
    if |s| == 0 then
      [""]
    else
      var rest := Split(s[1..], sep);
      if s[0] == sep then
        assert Join([""] + rest, sep) == [sep] + Join(rest, sep) by {
          assert ([""] + rest)[1..] == rest;
        }
        assert s == [s[0]] + s[1..];
        [""] + rest
      else
        var pieces := [[s[0]] + rest[0]] + rest[1..];
        assert Join(pieces, sep) == [s[0]] + Join(rest, sep) by {
          if |rest| > 1 {
            assert pieces[1..] == rest[1..];
          }
        }
        assert s == [s[0]] + s[1..];
        pieces
  }

  /** The other half of the round trip: splitting a join of separator-free
      pieces gives the pieces back. */
  lemma {:induction false} SplitJoin(pieces: seq<string>, sep: char)
    requires |pieces| >= 1
    requires forall i :: 0 <= i < |pieces| ==> sep !in pieces[i]
    ensures Split(Join(pieces, sep), sep) == pieces
    decreases |pieces|, |pieces[0]|
  {
    var s := Join(pieces, sep);
    if |pieces[0]| == 0 {
      if |pieces| == 1 {
        assert s == "";
      } else {
        var tail := pieces[1..];
        assert s == [sep] + Join(tail, sep);
        assert s[1..] == Join(tail, sep);
        SplitJoin(tail, sep);
        assert pieces == [""] + tail;
      }
    } else {
      var c := pieces[0][0];
      assert c != sep by {
        assert c in pieces[0];
      }
      var shorter := [pieces[0][1..]] + pieces[1..];
      assert forall i :: 0 <= i < |shorter| ==> sep !in shorter[i] by {
        forall i | 0 <= i < |shorter|
          ensures sep !in shorter[i]
        {
          if i == 0 {
            assert forall x :: x in pieces[0][1..] ==> x in pieces[0];
          } else {
            assert shorter[i] == pieces[i];
          }
        }
      }
      assert shorter[1..] == pieces[1..];
      assert pieces[0] == [c] + pieces[0][1..];
      assert Join(shorter, sep) == s[1..] by {
        if |pieces| == 1 {
          assert s == pieces[0];
        } else {
          assert s == pieces[0] + [sep] + Join(pieces[1..], sep);
          assert Join(shorter, sep) == pieces[0][1..] + [sep] + Join(pieces[1..], sep);
        }
      }
      SplitJoin(shorter, sep);
      assert s[0] == c;
      assert pieces == [[c] + shorter[0]] + shorter[1..] by {
        assert pieces == [pieces[0]] + pieces[1..];
      }
    }
  }
}
